=== FILE: README.md ===
# Aggregate report e-mail: a Dafny model

This project models the presentation logic of `reportEmailSender.js`. That file
turns the aggregated results of a finished load-test run into a report e-mail.
The model covers:

- **Duration formatting** (`timeConversion`): the elapsed milliseconds become
  `"<int>.<digit> <Unit>"`. The unit is the first of Sec, Min, Hrs and Days
  whose check passes: seconds below 60, minutes below 60, hours below 24. Days
  have no check. Each magnitude is rounded to one decimal before it is compared.
- **Tally summaries** (the two loops in `generateReportFromTemplate`): a
  label → count mapping becomes `"label: count"` pieces joined with `", "`. The
  same rule serves the status-code mapping and the error mapping.
- **The `testInfo` record**: the run time, the identifiers copied verbatim, and
  `score` and `benchmark` added only when they are truthy.
- **The mail options**: the recipients joined with `,`, and the subject line
  with its optional `" with score: "` suffix, rounded to two decimals.
- **The SMTP transport options** (`createSMTPClient`): fields copied or
  renamed, and credentials that fall back to `'test'` when they are falsy.
- **The delivery steps** of `sendAggregateReport`, as an abstract step model.
  The template failure escapes. Every later failure is caught and logged. The
  transporter is closed only on the success path.

Modules: `Wrappers` (Option, Result), `Text` (decimal digits, `toFixed`-style
fixed point, `join`/`split`), `Duration`, `Tally`, `Score` (decimal scores and
`toFixed(2)`), `Report`, `Smtp` and `Delivery`.

Numbers are unbounded integers. Elapsed time is a whole number of
milliseconds. A magnitude shown with one decimal is held as a whole number of
tenths, rounded half-up: `(ms+50)/100`, `(ms+3000)/6000`, `(ms+180000)/360000`,
`(ms+4320000)/8640000`. A score is a decimal `mantissa / 10^exponent`.

The numeric and list renderings have partner parsers: `Fixed` has `ParseFixed`,
`Render` has `ParseReading`, `Summarize` has `ParseTally`, and `Join` (hence
`Recipients`) has `Split`. The round-trip lemmas show when these rendered
strings determine the values they were built from. A fixed-point number or a
duration is always recovered. A tally summary is recovered when no label
contains ':'; two mappings can share a summary otherwise
(`Tally.ColonLabelsCollide`). A joined list is recovered when it is non-empty
and no part contains the separator; `[]` and `[""]` both join to "". The subject line has no
such partner and cannot be inverted, because a test name may itself contain
" with score: " (`Report.ScoreInNameCollides`). The success log message is
a plain string with no parser either. `ParseFixed` and `ParseReading`
accept only canonical text, with no leading zero in the integer part, so a
string that reads back as a value is exactly that value's rendering.

Points where the code's behaviour is easy to misread:

- The hours check compares against 24, not 60. Any duration whose rounded
  hours reach 24.0 is reported in days. At exactly 86 220 000 ms the quotient
  23.95 is held by binary floating point just below 23.95. So `toFixed(1)` gives
  "23.9" and the code returns "23.9 Hrs", where the exact-value model gives
  "1.0 Days". The other two cut-offs, 59 950 and 3 597 000 ms, are held just
  above their ties, and there code and model agree.
- Each unit's check compares the magnitude *after* rounding to one decimal. So
  59 960 ms (59.96 s, shown "60.0") is reported as `"1.0 Min"`.
- `transporter.close()` runs only after a successful `sendMail`. It is not
  called on every exit path.
- `score` is checked for truthiness, so a score of 0 is treated as absent.

## Model

| member | source | states |
|---|---|---|
| `Duration.TimeConversion` | src/reports/models/reportEmailSender.js:73-91 | `timeConversion` itself; its contract is stated by `Duration.TimeConversionReadsBack` |
| `Duration.Tenths` | src/reports/models/reportEmailSender.js:74-80 | the four `toFixed(1)` magnitudes as whole tenths; their rounding is stated by `Duration.TenthsNearest` |
| `Duration.Accepts` | src/reports/models/reportEmailSender.js:82-90 | the check of each branch: seconds and minutes below 60.0, hours below 24.0, days always; used by the contract of `Duration.Classify` |
| `Duration.TenthsNearest` | src/reports/models/reportEmailSender.js:74-80 | each magnitude is the nearest tenth of ms / (1000, 60 000, 3 600 000, 86 400 000), a tie rounding up |
| `Duration.Classify` | src/reports/models/reportEmailSender.js:82-90 | the chosen unit's check passes, every earlier unit's check fails, and the magnitude is the rounded value in the chosen unit |
| `Duration.TimeConversionReadsBack` | src/reports/models/reportEmailSender.js:73-91 | the result parses back to exactly the classified magnitude and unit, and it is the only string that does; a negative duration parses as "-" followed by rounded seconds |
| `Duration.ParseReadingExact` | src/reports/models/reportEmailSender.js:82-90 | a string that reads back as a magnitude and unit is the rendering of that reading, so "045.0 Sec" is not one |
| `Duration.Render` | src/reports/models/reportEmailSender.js:83-89 | the magnitude text, a space and the unit name, as in `seconds + ' Sec'`; its contract is stated by `Duration.RenderRoundTrip` and `Duration.ParseReadingExact` |
| `Duration.RenderRoundTrip` | src/reports/models/reportEmailSender.js:83-89 | `"<int>.<digit> <Unit>"` determines both the magnitude and the unit |
| `Duration.UnitRanges` | src/reports/models/reportEmailSender.js:82-90 | Sec iff ms < 59 950; Min iff 59 950 ≤ ms < 3 597 000; Hrs iff 3 597 000 ≤ ms < 86 220 000; Days otherwise, with no upper bound |
| `Duration.UnitMonotone` | src/reports/models/reportEmailSender.js:82-90 | a longer duration never gets a smaller unit |
| `Duration.MagnitudeBounds` | src/reports/models/reportEmailSender.js:82-90 | the shown magnitude is below 60.0 in Sec and Min and below 24.0 in Hrs; outside Sec it is never below 1.0 |
| `Duration.ExampleSeconds` | src/reports/models/reportEmailSender.js:82-83 | 45 000 ms gives "45.0 Sec" |
| `Duration.ExampleSecondsBoundary` | src/reports/models/reportEmailSender.js:74-85 | 59 960 ms and 60 000 ms both give "1.0 Min" |
| `Duration.ExampleMinutes` | src/reports/models/reportEmailSender.js:84-85 | 125 000 ms gives "2.1 Min" |
| `Duration.ExampleHours` | src/reports/models/reportEmailSender.js:86-87 | 7 200 000 ms gives "2.0 Hrs" |
| `Duration.ExampleDays` | src/reports/models/reportEmailSender.js:86-90 | 172 800 000 ms gives "2.0 Days" |
| `Text.NatToString` | src/reports/models/reportEmailSender.js:96 | `String(count)`, also the integer part of `toFixed`: non-empty, digits only, no leading zero, one character exactly below 10; `Text.NatToStringRoundTrip` reads it back |
| `Text.NatToStringRoundTrip` | src/reports/models/reportEmailSender.js:96 | the digits of `String(n)` denote n |
| `Text.Fixed` | src/reports/models/reportEmailSender.js:74-80 | `toFixed(places)` of n / 10^places on exact values; its contract is stated by `Text.FixedRoundTrip` and `Text.ParseFixedExact` |
| `Text.FixedRoundTrip` | src/reports/models/reportEmailSender.js:74-80 | the fixed-point text (integer part, point, exactly `places` digits) reads back as the number it renders |
| `Text.NatToStringInjective` | src/reports/models/reportEmailSender.js:96 | different counts never print as the same `String(n)` text |
| `Text.FixedInjective` | src/reports/models/reportEmailSender.js:74-80 | different magnitudes never print as the same `toFixed` text |
| `Text.ParseFixedExact` | src/reports/models/reportEmailSender.js:74-80 | the only text that reads back as n is the fixed-point rendering of n |
| `Text.Join` | src/reports/models/reportEmailSender.js:98 | `Array.prototype.join`: the parts in order with the separator between neighbours; its contract is stated by `Text.JoinAppend` and `Text.SplitJoin` |
| `Text.JoinAppend` | src/reports/models/reportEmailSender.js:98 | joining two non-empty lists is joining each and putting the separator between them |
| `Text.SplitJoin` | src/reports/models/reportEmailSender.js:37 | for a non-empty list, splitting at a character undoes joining with it when no part holds that character |
| `Tally.Piece` | src/reports/models/reportEmailSender.js:96 | the template literal `${code}: ${count}`; its contract is stated by `Tally.SummarizeSingle` |
| `Tally.Summarize` | src/reports/models/reportEmailSender.js:94-98 | the summary as a definition: "label: count" pieces joined by ", "; its contract is stated by `Tally.SummarizeTally` and the lemmas below |
| `Tally.SummarizeTally` | src/reports/models/reportEmailSender.js:94-98 | the forEach/push/join loop produces the ", "-joined "label: count" pieces in enumeration order, and "" exactly for an empty mapping |
| `Tally.SummarizeEmptyIff` | src/reports/models/reportEmailSender.js:94-98 | only the empty mapping has the empty summary |
| `Tally.SummarizeSingle` | src/reports/models/reportEmailSender.js:96 | one entry gives exactly "label: count" |
| `Tally.SummarizeAppend` | src/reports/models/reportEmailSender.js:94-98 | the summary of two consecutive non-empty runs of entries is their summaries joined by ", " |
| `Tally.SummarizeRoundTrip` | src/reports/models/reportEmailSender.js:94-104 | when no label contains ':', the summary parses back to the mapping, with order and counts |
| `Tally.SummarizeInjective` | src/reports/models/reportEmailSender.js:94-104 | two mappings without ':' in their labels have equal summaries only when they are equal |
| `Tally.ColonLabelsCollide` | src/reports/models/reportEmailSender.js:96 | a label containing ':' can make two different mappings share one summary |
| `Tally.ExampleCodes` | src/reports/models/reportEmailSender.js:94-98 | { "200": 10 } gives "200: 10", and the empty mapping gives "" |
| `Score.Hundredths` | src/reports/models/reportEmailSender.js:39 | the magnitude of the score is rounded to the nearest hundredth, a tie going up |
| `Score.ToFixed2` | src/reports/models/reportEmailSender.js:39 | `toFixed(2)` reads back as the rounded hundredths, with a leading "-" exactly for a negative score |
| `Score.ToFixed2Exact` | src/reports/models/reportEmailSender.js:39 | the two-decimal text is the only text that reads back as the rounded score |
| `Score.ExampleScore` | src/reports/models/reportEmailSender.js:39 | 87.456 prints as "87.46" |
| `Score.Truthy` | src/reports/models/reportEmailSender.js:39 | a number is truthy exactly when it is not 0; used by `Report.ScoreTruthy` and by the requires of `Report.SubjectScoreRounded` |
| `Report.ScoreTruthy` | src/reports/models/reportEmailSender.js:25-27 | `reportBenchmark.score` is truthy when present and not 0; used by the contract of `Report.BuildTestInfo` |
| `Report.BuildTestInfo` | src/reports/models/reportEmailSender.js:14-30 | runTime is the converted end − start; the identifiers and parallelism are copied; score is present iff the benchmark score is truthy, and benchmark iff data is present, each with the value given |
| `Report.ZeroScoreDropped` | src/reports/models/reportEmailSender.js:25-27 | a supplied score of 0 is left out of testInfo |
| `Report.ExampleScoreKept` | src/reports/models/reportEmailSender.js:25-27 | testInfo keeps the unrounded score 87.456 |
| `Report.ExampleSmokeRun` | src/reports/models/reportEmailSender.js:14-30 | a run from 1000 to 61 000 with no benchmark has runTime "1.0 Min" and neither score nor benchmark |
| `Report.EmailContext` | src/reports/models/reportEmailSender.js:106 | the `emailVars` object literal with both summaries; its contract is stated by `Report.BuildEmailVars` |
| `Report.BuildEmailVars` | src/reports/models/reportEmailSender.js:93-106 | the loops build the context record `EmailContext` defines: both summaries under one rule, each depending only on its own mapping and reading back to it when no label contains ':' |
| `Report.Subject` | src/reports/models/reportEmailSender.js:39 | the subject starts with "Your test results: " and the test name; it is longer exactly when the score is truthy, and the extra text is " with score: " and the two-decimal score |
| `Report.SubjectScoreRounded` | src/reports/models/reportEmailSender.js:39 | for a truthy score, the text after " with score: " is the score's magnitude rounded to hundredths, preceded by "-" exactly when the score is negative |
| `Report.ScoreInNameCollides` | src/reports/models/reportEmailSender.js:39 | a test name ending in " with score: " and a score's text gives the same subject as that score, so the subject does not determine name and score |
| `Report.Recipients` | src/reports/models/reportEmailSender.js:37 | `[emails].join(',')` as the join of the address list; its contract is stated by `Report.RecipientsRoundTrip` |
| `Report.RecipientsRoundTrip` | src/reports/models/reportEmailSender.js:37 | splitting the `to` field at ',' gives back a non-empty address list when no address contains ','; an empty list is not recovered, since it gives "" as `[""]` does |
| `Report.CreateMailOptions` | src/reports/models/reportEmailSender.js:34-41 | from and html are passed through; to is the joined recipients; subject is the subject line for the benchmark score |
| `Smtp.Falsy` | src/reports/models/reportEmailSender.js:62-63 | an optional string is falsy when absent or empty; used by the contract of `Smtp.OrPlaceholder` |
| `Smtp.OrPlaceholder` | src/reports/models/reportEmailSender.js:62-63 | a falsy credential (absent or empty) becomes "test", and any other credential is kept |
| `Smtp.CreateSmtpOptions` | src/reports/models/reportEmailSender.js:55-68 | port, host and secure are copied; timeout becomes connectionTimeout; rejectUnauthCerts becomes tls.rejectUnauthorized; credentials default to "test" |
| `Smtp.OptionsDetermineConfig` | src/reports/models/reportEmailSender.js:55-68 | equal transport options imply equal connection settings, and equal credentials unless one side was falsy |
| `Smtp.PlaceholderIndistinguishable` | src/reports/models/reportEmailSender.js:62-63 | a missing, an empty and a literal "test" credential reach the transport identically |
| `Delivery.ReportContext` | src/reports/models/reportEmailSender.js:14-32 | the template context of a run, built from the testInfo record and the results only; used by the contract of `Delivery.SendAggregateReport` |
| `Delivery.SuccessMessage` | src/reports/models/reportEmailSender.js:49 | the success log text with the test and report ids; its contract is stated by `Delivery.SendAggregateReport` |
| `Delivery.GenerateReport` | src/reports/models/reportEmailSender.js:93-115 | the template is applied to the context with both summaries; an unreadable template yields its error |
| `Delivery.SendAggregateReport` | src/reports/models/reportEmailSender.js:10-53 | the call rejects iff the template fails; otherwise one log entry is written and the transporter is closed iff the send succeeded. A failing config lookup or createTransport (given the options `createSMTPClient` builds from the config) logs its own error with "Failed to send email" and sends nothing. Once a transport exists, the message handed to sendMail has the config's from, the joined recipients, the subject line and the template applied to the run's context; a failing send logs its error and leaves the transporter open, and a successful send logs the response with the test and report ids and closes it |

## Left out

- Reading the template file and compiling it with lodash (lines 108-113): the template is a parameter. It is either a function from the context record to HTML, or the error that reading the file (line 111) or compiling it (line 112) threw.
- A throw while applying the compiled template to a particular context (line 113) is not modelled: the template function is total.
- The configuration store and nodemailer's `createTransport` and `sendMail` (lines 44-47): each is a parameter of `Delivery.SendAggregateReport` that yields a value or an error. Asynchrony is reduced to the order of the steps.
- The logger (lines 49, 51) is not a parameter: the one entry it would write is the `log` field of the outcome.
- A throw from `transporter.close()` (line 48) or from `logger.info` (line 49): the catch at line 50 would log it as an error after the mail has gone out. The model treats both calls as infallible.
- A throw from `logger.error` inside the catch (line 51): the call would then reject after a config, transport or send failure, although the template succeeded. The model treats the call as infallible, so `Delivery.SendAggregateReport` rejects only on a template failure.
- `new Date(...)` (lines 18-19): the start and end instants are kept as raw millisecond numbers.
- Binary floating point: `toFixed` is modelled on exact values with half-up rounding. Ties that binary rounding breaks the other way are not modelled, and neither is the exponential notation `toFixed` uses from 1e21 upward.
- The key order of `Object.keys` (lines 95, 101): a mapping is given as a sequence already in enumeration order.
- The `reportBenchmark = {}` default and null or malformed inputs (line 10): records are assumed well formed. A NaN score and a score that is not a number (on which `toFixed` would throw) are not modelled.
- Benchmark `data` is an object, so it is present exactly when it is truthy. A falsy primitive supplied as `data` is not modelled.
- Smtp.CreateSmtpOptions: config fields are typed values, so an undefined port, host, timeout, secure flag or certificate flag being copied through as undefined is not modelled.
- Counts in the tallies are natural numbers. Fractional or negative counts are not modelled.

=== FILE: delivery.dfy ===
/**
  sendAggregateReport as a sequence of steps. The collaborators (template file,
  configuration store, mail transport, logger) are parameters; each I/O step
  either yields a value or throws. The template is rendered before the
  try block, so its failure escapes; every later failure is caught and logged.
 */
module Delivery {
  import opened Wrappers
  import opened Report
  import opened Smtp

  /** What the outside world does at each I/O step of one invocation. */
  datatype Environment = Environment(
    template: Result<Template, Error>,
    config: Result<SmtpConfig, Error>,
    createTransport: TransportOptions -> Result<(), Error>,
    sendMail: MailOptions -> Result<string, Error>)

  datatype LogEntry =
    | Info(response: string, message: string)
    | ErrorLog(error: Error, message: string)

  /**
    How an invocation ends: the promise rejects with the template error, or it
    resolves after one log entry; `attempted` is the message handed to
    sendMail, if the run got that far, and `closed` whether the transporter
    was closed.
   */
  datatype Outcome =
    | Rejected(error: Error)
    | Resolved(log: LogEntry, attempted: Option<MailOptions>, closed: bool)

  const FailureMessage: string := "Failed to send email"

  function SuccessMessage(testId: string, reportId: string): string
  {
    "Sent email successfully for testId: " + testId + ", reportId: " + reportId
  }

  /** The template context of a run: it depends on the results and the benchmark only. */
  function ReportContext(r: AggregatedResults, b: Benchmark): EmailVars
  {
    EmailContext(r.testName, BuildTestInfo(r, b), r.grafanaUrl, r.aggregate)
  }

  /** generateReportFromTemplate: the template applied to the context; throws when the template cannot be read. */
  method GenerateReport(r: AggregatedResults, ti: TestInfo, template: Result<Template, Error>)
    returns (html: Result<string, Error>, vars: EmailVars)
    ensures vars.codesSummary == Tally.Summarize(r.aggregate.codes)
    ensures vars.errorsSummary == Tally.Summarize(r.aggregate.errors)
    ensures vars.testName == r.testName && vars.testInfo == ti && vars.grafanaUrl == r.grafanaUrl
    ensures vars.aggregatedResults == r.aggregate
    ensures template.Failure? ==> html == Failure(template.error)
    ensures template.Success? ==> html == Success(template.value(vars))
  {
    vars := BuildEmailVars(r.testName, ti, r.grafanaUrl, r.aggregate);
    match template
    case Failure(e) => html := Failure(e);
    case Success(render) => html := Success(render(vars));
  }

  method SendAggregateReport(r: AggregatedResults, emails: seq<string>, b: Benchmark, env: Environment)
    returns (o: Outcome)
    ensures o.Rejected? <==> env.template.Failure?
    ensures o.Rejected? ==> o.error == env.template.error
    ensures o.Resolved? ==> (o.closed <==> o.log.Info?)
    ensures o.Resolved? && o.log.Info? ==>
              && env.config.Success?
              && o.attempted.Some?
              && env.sendMail(o.attempted.value) == Success(o.log.response)
              && o.log.message == SuccessMessage(r.testId, r.reportId)
    ensures o.Resolved? && o.log.ErrorLog? ==> o.log.message == FailureMessage
    ensures o.Resolved? && env.config.Failure? ==>
              o.log == ErrorLog(env.config.error, FailureMessage) && o.attempted.None?
    ensures o.Resolved? && o.attempted.Some? ==>
              && env.config.Success?
              && o.attempted.value.from == env.config.value.from
              && o.attempted.value.to == Recipients(emails)
              && o.attempted.value.subject == Subject(r.testName, b.score)
              && o.attempted.value.html == env.template.value(ReportContext(r, b))
    ensures env.template.Success? && env.config.Success? ==>
              var transport := env.createTransport(CreateSmtpOptions(env.config.value));
              transport.Failure? ==> o == Resolved(ErrorLog(transport.error, FailureMessage), None, false)
    ensures env.template.Success? && env.config.Success? ==>
              var transport := env.createTransport(CreateSmtpOptions(env.config.value));
              var m := CreateMailOptions(env.config.value.from, emails, env.template.value(ReportContext(r, b)), r.testName, b);
              transport.Success? ==>
                && (env.sendMail(m).Failure? ==>
                      o == Resolved(ErrorLog(env.sendMail(m).error, FailureMessage), Some(m), false))
                && (env.sendMail(m).Success? ==>
                      o == Resolved(Info(env.sendMail(m).value, SuccessMessage(r.testId, r.reportId)), Some(m), true))
  {
    var ti := BuildTestInfo(r, b);
    var html, vars := GenerateReport(r, ti, env.template);
    if html.Failure? {
      return Rejected(html.error);
    }
    assert vars == ReportContext(r, b);
    // try
    if env.config.Failure? {
      return Resolved(ErrorLog(env.config.error, FailureMessage), None, false);
    }
    var configSmtp := env.config.value;
    var transporter := env.createTransport(CreateSmtpOptions(configSmtp));
    if transporter.Failure? {
      return Resolved(ErrorLog(transporter.error, FailureMessage), None, false);
    }
    var mailOptions := CreateMailOptions(configSmtp.from, emails, html.value, r.testName, b);
    var response := env.sendMail(mailOptions);
    if response.Failure? {
      return Resolved(ErrorLog(response.error, FailureMessage), Some(mailOptions), false);
    }
    o := Resolved(Info(response.value, SuccessMessage(r.testId, r.reportId)), Some(mailOptions), true);
  }
}

=== FILE: duration.dfy ===
/**
  `timeConversion` of reportEmailSender.js: an elapsed time in milliseconds
  becomes "<magnitude with one decimal> <unit>". The magnitude in each unit is
  rounded to tenths first, and the rounded value is what the unit thresholds
  are compared against.
 */
module Duration {
  import opened Wrappers
  import opened Text

  datatype TimeUnit = Sec | Min | Hrs | Days

  /** Milliseconds per unit: 1000, 1000*60, 1000*60*60, 1000*60*60*24. */
  function UnitMs(u: TimeUnit): nat
  {
    match u
    case Sec => 1000
    case Min => 1000 * 60
    case Hrs => 1000 * 60 * 60
    case Days => 1000 * 60 * 60 * 24
  }

  /** The order in which the units are tried. */
  function Rank(u: TimeUnit): nat
  {
    match u
    case Sec => 0
    case Min => 1
    case Hrs => 2
    case Days => 3
  }

  function UnitName(u: TimeUnit): string
  {
    match u
    case Sec => "Sec"
    case Min => "Min"
    case Hrs => "Hrs"
    case Days => "Days"
  }

  /**
    `(ms / UnitMs(u)).toFixed(1)` as a whole number of tenths: half a tenth is
    added and the quotient by one tenth of the unit is truncated, so the result
    is the nearest tenth, a tie going up.
   */
  function Tenths(ms: nat, u: TimeUnit): nat
  {
    match u
    case Sec => (ms + 50) / 100
    case Min => (ms + 3000) / 6000
    case Hrs => (ms + 180000) / 360000
    case Days => (ms + 4320000) / 8640000
  }

  /** The rounded magnitude is within half a tenth of ms / UnitMs(u), a tie going up. */
  lemma TenthsNearest(ms: nat, u: TimeUnit)
    ensures 2 * Tenths(ms, u) * UnitMs(u) <= 20 * ms + UnitMs(u) < 2 * (Tenths(ms, u) + 1) * UnitMs(u)
  {
    match u
    case Sec =>
    case Min =>
    case Hrs =>
    case Days =>
  }

  /**
    Whether the check for unit `u` passes: seconds and minutes below 60, hours
    below 24 (compared as tenths); days have no check.
   */
  predicate Accepts(ms: nat, u: TimeUnit)
  {
    match u
    case Sec => Tenths(ms, Sec) < 600
    case Min => Tenths(ms, Min) < 600
    case Hrs => Tenths(ms, Hrs) < 240
    case Days => true
  }

  /** A formatted duration: a magnitude in tenths and its unit. */
  datatype Reading = Reading(tenths: nat, unit: TimeUnit)

  /** The if/else-if chain: the first unit whose check passes, with its rounded magnitude. */
  function Classify(ms: nat): (rd: Reading)
    ensures Accepts(ms, rd.unit)
    ensures forall u :: Rank(u) < Rank(rd.unit) ==> !Accepts(ms, u)
    ensures rd.tenths == Tenths(ms, rd.unit)
  {
    var seconds := Tenths(ms, Sec);
    var minutes := Tenths(ms, Min);
    var hours := Tenths(ms, Hrs);
    var days := Tenths(ms, Days);
    if seconds < 600 then Reading(seconds, Sec)
    else if minutes < 600 then Reading(minutes, Min)
    else if hours < 240 then Reading(hours, Hrs)
    else Reading(days, Days)
  }

  /** "<int>.<digit> <Unit>". */
  function Render(rd: Reading): string
  {
    Fixed(rd.tenths, 1) + " " + UnitName(rd.unit)
  }

  function ParseUnit(s: string): Option<TimeUnit>
  {
    if s == "Sec" then Some(Sec)
    else if s == "Min" then Some(Min)
    else if s == "Hrs" then Some(Hrs)
    else if s == "Days" then Some(Days)
    else None
  }

  /** Reads a rendered duration back into its magnitude and unit. */
  function ParseReading(s: string): Option<Reading>
  {
    var i := IndexOf(s, ' ');
    if i == |s| then None
    else
      match (ParseFixed(s[..i], 1), ParseUnit(s[i + 1..]))
      case (Some(t), Some(u)) => Some(Reading(t, u))
      case _ => None
  }

  /** A rendered magnitude holds digits and a point, never a space. */
  lemma NoSpaceInMagnitude(t: nat)
    ensures ' ' !in Fixed(t, 1)
  {
    var num := Fixed(t, 1);
    FixedShape(t, 1);
    forall i | 0 <= i < |num| ensures num[i] != ' ' {
      assert IsDigit(num[i]) || num[i] == '.';
    }
  }

  /** A magnitude text without spaces, a space and a unit name parse as that magnitude and unit. */
  lemma ParseReadingParts(num: string, t: nat, u: TimeUnit)
    requires ' ' !in num && ParseFixed(num, 1) == Some(t)
    ensures ParseReading(num + " " + UnitName(u)) == Some(Reading(t, u))
  {
    var s := num + " " + UnitName(u);
    assert s == num + [' '] + UnitName(u);
    IndexOfAfterPrefix(num, ' ', UnitName(u));
    assert s[..|num|] == num;
    assert s[|num| + 1..] == UnitName(u);
  }

  lemma RenderRoundTrip(rd: Reading)
    ensures ParseReading(Render(rd)) == Some(rd)
  {
    NoSpaceInMagnitude(rd.tenths);
    FixedRoundTrip(rd.tenths, 1);
    ParseReadingParts(Fixed(rd.tenths, 1), rd.tenths, rd.unit);
  }

  /** The parser accepts only renderings: a string read as `rd` is `Render(rd)`, so "045.0 Sec" is refused. */
  lemma ParseReadingExact(s: string, rd: Reading)
    requires ParseReading(s) == Some(rd)
    ensures s == Render(rd)
  {
    var i := IndexOf(s, ' ');
    ParseFixedExact(s[..i], 1, rd.tenths);
    assert s[i + 1..] == UnitName(rd.unit);
    assert s == s[..i] + " " + s[i + 1..];
  }

  /**
    timeConversion(milliseconds). A negative elapsed time (end before start)
    is rendered the way toFixed renders a negative number, "-" followed by the
    magnitude, and always passes the seconds check.
   */
  function TimeConversion(ms: int): string
  {
    if ms >= 0 then Render(Classify(ms))
    else "-" + Render(Reading(Tenths(-ms, Sec), Sec))
  }

  /**
    The result reads back as the first unit whose check passes, with the
    magnitude rounded in that unit; a negative duration reads back as a signed
    number of seconds.
   */
  lemma TimeConversionReadsBack(ms: int)
    ensures ms >= 0 ==> ParseReading(TimeConversion(ms)) == Some(Classify(ms))
    ensures ms < 0 ==>
              var r := TimeConversion(ms);
              |r| > 0 && r[0] == '-' && ParseReading(r[1..]) == Some(Reading(Tenths(-ms, Sec), Sec))
    ensures ms >= 0 ==> forall s :: ParseReading(s) == Some(Classify(ms)) ==> s == TimeConversion(ms)
  {
    forall s | ms >= 0 && ParseReading(s) == Some(Classify(ms)) ensures s == TimeConversion(ms) {
      ParseReadingExact(s, Classify(ms));
    }
    if ms >= 0 {
      RenderRoundTrip(Classify(ms));
    } else {
      var rd := Reading(Tenths(-ms, Sec), Sec);
      RenderRoundTrip(rd);
      assert ("-" + Render(rd))[1..] == Render(rd);
    }
  }

  /** The unit is fixed by four millisecond ranges. */
  lemma UnitRanges(ms: nat)
    ensures Classify(ms).unit == Sec <==> ms < 59950
    ensures Classify(ms).unit == Min <==> 59950 <= ms < 3597000
    ensures Classify(ms).unit == Hrs <==> 3597000 <= ms < 86220000
    ensures Classify(ms).unit == Days <==> 86220000 <= ms
  {
  }

  /** A longer duration never gets a smaller unit. */
  lemma UnitMonotone(a: nat, b: nat)
    requires a <= b
    ensures Rank(Classify(a).unit) <= Rank(Classify(b).unit)
  {
    UnitRanges(a);
    UnitRanges(b);
  }

  /** The displayed magnitude stays below the unit's threshold, and only seconds show less than 1.0. */
  lemma MagnitudeBounds(ms: nat)
    ensures Classify(ms).unit != Days ==> Classify(ms).tenths < 600
    ensures Classify(ms).unit == Hrs ==> Classify(ms).tenths < 240
    ensures Classify(ms).unit != Sec ==> Classify(ms).tenths >= 10
  {
    UnitRanges(ms);
  }

  /** For a non-negative duration the result is the rendering of its classification. */
  lemma TimeConversionRenders(ms: nat)
    ensures TimeConversion(ms) == Render(Classify(ms))
  {
  }

  /** Render of a magnitude below 10.0, character by character. */
  lemma RenderOneDigit(a: nat, b: nat, u: TimeUnit)
    requires a < 10 && b < 10
    ensures Render(Reading(10 * a + b, u)) == [DigitChar(a), '.', DigitChar(b), ' '] + UnitName(u)
  {
    var t := 10 * a + b;
    assert DivPow10(t, 1) == DivPow10(t / 10, 0) == a;
    assert FracPart(t, 1) == b;
    assert PadDigits(b, 1) == [DigitChar(b)];
  }

  /** Render of a magnitude from 10.0 to 99.9, character by character. */
  lemma RenderTwoDigits(a: nat, b: nat, c: nat, u: TimeUnit)
    requires 0 < a < 10 && b < 10 && c < 10
    ensures Render(Reading(100 * a + 10 * b + c, u)) == [DigitChar(a), DigitChar(b), '.', DigitChar(c), ' '] + UnitName(u)
  {
    var t := 100 * a + 10 * b + c;
    assert DivPow10(t, 1) == DivPow10(t / 10, 0) == 10 * a + b;
    assert FracPart(t, 1) == c;
    assert PadDigits(c, 1) == [DigitChar(c)];
    assert NatToString(10 * a + b) == NatToString(a) + [DigitChar(b)];
  }

  lemma ExampleSeconds()
    ensures TimeConversion(45000) == "45.0 Sec"
  {
    TimeConversionRenders(45000);
    assert Classify(45000) == Reading(450, Sec);
    RenderTwoDigits(4, 5, 0, Sec);
    assert DigitChar(4) == '4' && DigitChar(5) == '5' && DigitChar(0) == '0';
  }

  /** 59.96 s rounds to "60.0", fails the seconds check and falls through to minutes. */
  lemma ExampleSecondsBoundary()
    ensures TimeConversion(59960) == "1.0 Min"
    ensures TimeConversion(60000) == "1.0 Min"
  {
    TimeConversionRenders(59960);
    TimeConversionRenders(60000);
    assert Classify(59960) == Reading(10, Min);
    assert Classify(60000) == Reading(10, Min);
    RenderOneDigit(1, 0, Min);
    assert DigitChar(1) == '1' && DigitChar(0) == '0';
  }

  lemma ExampleMinutes()
    ensures TimeConversion(125000) == "2.1 Min"
  {
    TimeConversionRenders(125000);
    assert Classify(125000) == Reading(21, Min);
    RenderOneDigit(2, 1, Min);
    assert DigitChar(2) == '2' && DigitChar(1) == '1';
  }

  /** Two hours stay in hours: the hours check compares against 24. */
  lemma ExampleHours()
    ensures TimeConversion(7200000) == "2.0 Hrs"
  {
    TimeConversionRenders(7200000);
    assert Tenths(7200000, Hrs) == 20;
    assert Classify(7200000) == Reading(20, Hrs);
    RenderOneDigit(2, 0, Hrs);
    assert DigitChar(2) == '2' && DigitChar(0) == '0';
  }

  /** Two days fail the hours check and are reported in days. */
  lemma ExampleDays()
    ensures TimeConversion(172800000) == "2.0 Days"
  {
    TimeConversionRenders(172800000);
    assert Tenths(172800000, Hrs) == 480;
    assert Classify(172800000) == Reading(20, Days);
    RenderOneDigit(2, 0, Days);
    assert DigitChar(2) == '2' && DigitChar(0) == '0';
  }
}

=== FILE: report.dfy ===
/**
  The pure part of sendAggregateReport: the testInfo record, the template
  context built by generateReportFromTemplate, and the strings of the mail
  options (recipients and subject).
 */
module Report {
  import opened Wrappers
  import opened Text
  import opened Duration
  import opened Tally
  import opened Score

  /** An error thrown by a step, with its message. */
  datatype Error = Error(message: string)

  datatype Aggregate = Aggregate(codes: Entries, errors: Entries)

  /** The fields of aggregatedResults that the report reads; times are epoch milliseconds. */
  datatype AggregatedResults = AggregatedResults(
    testName: string,
    startTime: int,
    endTime: int,
    testId: string,
    revisionId: string,
    reportId: string,
    parallelism: nat,
    grafanaUrl: string,
    aggregate: Aggregate)

  /** The benchmark data: a JSON object, so truthy whenever it is present. */
  datatype Payload = Payload(json: string)

  /** reportBenchmark; either field may be absent. */
  datatype Benchmark = Benchmark(score: Option<Decimal>, data: Option<Payload>)

  /** `if (reportBenchmark.score)`: present and not 0. */
  predicate ScoreTruthy(score: Option<Decimal>)
  {
    score.Some? && Truthy(score.value)
  }

  datatype TestInfo = TestInfo(
    runTime: string,
    startTime: int,
    endTime: int,
    testId: string,
    revisionId: string,
    reportId: string,
    parallelism: nat,
    score: Option<Decimal>,
    benchmark: Option<Payload>)

  /**
    The testInfo record: the run time of end - start, the identifiers copied,
    then score and benchmark added only when truthy.
   */
  function BuildTestInfo(r: AggregatedResults, b: Benchmark): (ti: TestInfo)
    ensures ti.runTime == TimeConversion(r.endTime - r.startTime)
    ensures ti.startTime == r.startTime && ti.endTime == r.endTime
    ensures ti.testId == r.testId && ti.revisionId == r.revisionId && ti.reportId == r.reportId
    ensures ti.parallelism == r.parallelism
    ensures ti.score.Some? <==> ScoreTruthy(b.score)
    ensures ti.score.Some? ==> ti.score == b.score
    ensures ti.benchmark.Some? <==> b.data.Some?
    ensures ti.benchmark.Some? ==> ti.benchmark == b.data
  {
    var base := TestInfo(
      TimeConversion(r.endTime - r.startTime), r.startTime, r.endTime,
      r.testId, r.revisionId, r.reportId, r.parallelism, None, None);
    var withScore := if ScoreTruthy(b.score) then base.(score := b.score) else base;
    if b.data.Some? then withScore.(benchmark := b.data) else withScore
  }

  /** A score of 0 is falsy: it is left out of testInfo although it was supplied. */
  lemma ZeroScoreDropped(r: AggregatedResults, exponent: nat, data: Option<Payload>)
    ensures BuildTestInfo(r, Benchmark(Some(Decimal(0, exponent)), data)).score == None
  {
  }

  /** The context handed to the email template. */
  datatype EmailVars = EmailVars(
    testName: string,
    testInfo: TestInfo,
    grafanaUrl: string,
    aggregatedResults: Aggregate,
    codesSummary: string,
    errorsSummary: string)

  /** The context of generateReportFromTemplate, with both summaries made by one rule. */
  function EmailContext(testName: string, testInfo: TestInfo, grafanaUrl: string, aggregate: Aggregate): EmailVars
  {
    EmailVars(testName, testInfo, grafanaUrl, aggregate, Summarize(aggregate.codes), Summarize(aggregate.errors))
  }

  /** Builds the context with the forEach/push/join loop of each summary. */
  method BuildEmailVars(testName: string, testInfo: TestInfo, grafanaUrl: string, aggregate: Aggregate)
    returns (v: EmailVars)
    ensures v == EmailContext(testName, testInfo, grafanaUrl, aggregate)
    ensures PlainLabels(aggregate.codes) ==> ParseTally(v.codesSummary) == Some(aggregate.codes)
    ensures PlainLabels(aggregate.errors) ==> ParseTally(v.errorsSummary) == Some(aggregate.errors)
  {
    var codesSummary := SummarizeTally(aggregate.codes);
    var errorsSummary := SummarizeTally(aggregate.errors);
    if PlainLabels(aggregate.codes) {
      SummarizeRoundTrip(aggregate.codes);
    }
    if PlainLabels(aggregate.errors) {
      SummarizeRoundTrip(aggregate.errors);
    }
    v := EmailVars(testName, testInfo, grafanaUrl, aggregate, codesSummary, errorsSummary);
  }

  /** The compiled email template: an opaque function of its context. */
  type Template = EmailVars -> string

  const SubjectPrefix: string := "Your test results: "
  const ScoreInfix: string := " with score: "

  /** The subject line: the test name, then the score to two decimals when the score is truthy. */
  function Subject(testName: string, score: Option<Decimal>): (s: string)
    ensures |s| >= |SubjectPrefix| + |testName|
    ensures s[..|SubjectPrefix| + |testName|] == SubjectPrefix + testName
    ensures |s| > |SubjectPrefix| + |testName| <==> ScoreTruthy(score)
    ensures ScoreTruthy(score) ==> s[|SubjectPrefix| + |testName|..] == ScoreInfix + ToFixed2(score.value)
  {
    var base := SubjectPrefix + testName;
    var s := base + (if ScoreTruthy(score) then ScoreInfix + ToFixed2(score.value) else "");
    assert s[..|base|] == base;
    s
  }

  /**
    The text after the infix is the score rounded to hundredths, preceded by
    "-" when the score is negative.
   */
  lemma SubjectScoreRounded(testName: string, d: Decimal)
    requires Truthy(d)
    ensures d.mantissa > 0 ==>
              ParseFixed(Subject(testName, Some(d))[|SubjectPrefix| + |testName| + |ScoreInfix|..], 2)
              == Some(Hundredths(d))
    ensures d.mantissa < 0 ==>
              && |Subject(testName, Some(d))| > |SubjectPrefix| + |testName| + |ScoreInfix|
              && Subject(testName, Some(d))[|SubjectPrefix| + |testName| + |ScoreInfix|] == '-'
              && ParseFixed(Subject(testName, Some(d))[|SubjectPrefix| + |testName| + |ScoreInfix| + 1..], 2)
                 == Some(Hundredths(d))
  {
    var s := Subject(testName, Some(d));
    var tail := s[|SubjectPrefix| + |testName|..];
    assert tail == ScoreInfix + ToFixed2(d);
    assert s[|SubjectPrefix| + |testName| + |ScoreInfix|..] == tail[|ScoreInfix|..];
    assert tail[|ScoreInfix|..] == ToFixed2(d);
  }

  /** `[emails].join(',')` for an array of addresses. */
  function Recipients(emails: seq<string>): string
  {
    Join(emails, ",")
  }

  /** The address list is recovered from the `to` field when no address holds a comma. */
  lemma RecipientsRoundTrip(emails: seq<string>)
    requires |emails| > 0
    requires forall k :: 0 <= k < |emails| ==> ',' !in emails[k]
    ensures Split(Recipients(emails), ',') == emails
  {
    SplitJoin(emails, ',');
  }

  datatype MailOptions = MailOptions(from: string, to: string, html: string, subject: string)

  /** createMailOptions. */
  function CreateMailOptions(from: string, emails: seq<string>, html: string, testName: string, b: Benchmark)
    : (m: MailOptions)
    ensures m.from == from && m.html == html
    ensures m.to == Recipients(emails)
    ensures m.subject == Subject(testName, b.score)
  {
    MailOptions(from, Recipients(emails), html, Subject(testName, b.score))
  }

  /**
    The subject line cannot be read back: a test name that itself ends in
    " with score: " and the score's text gives the same subject as that score.
   */
  lemma ScoreInNameCollides(testName: string, d: Decimal)
    requires Truthy(d)
    ensures Subject(testName + ScoreInfix + ToFixed2(d), None) == Subject(testName, Some(d))
  {
    var scored := Subject(testName, Some(d));
    assert scored == scored[..|SubjectPrefix| + |testName|] + scored[|SubjectPrefix| + |testName|..];
  }

  /** A score of 87.456 is kept unrounded in testInfo. */
  lemma ExampleScoreKept(r: AggregatedResults)
    ensures BuildTestInfo(r, Benchmark(Some(Decimal(87456, 3)), None)).score == Some(Decimal(87456, 3))
  {
    assert ScoreTruthy(Some(Decimal(87456, 3)));
  }

  /** A one-minute run without a benchmark: "1.0 Min", and neither score nor benchmark. */
  lemma ExampleSmokeRun(r: AggregatedResults)
    requires r.startTime == 1000 && r.endTime == 61000
    ensures BuildTestInfo(r, Benchmark(None, None)).runTime == "1.0 Min"
    ensures BuildTestInfo(r, Benchmark(None, None)).score == None
    ensures BuildTestInfo(r, Benchmark(None, None)).benchmark == None
  {
    ExampleSecondsBoundary();
  }
}

=== FILE: score.dfy ===
/**
  A benchmark score and `score.toFixed(2)`. A score is a decimal number
  mantissa / 10^exponent; JavaScript treats it as falsy exactly when it is 0.
 */
module Score {
  import opened Wrappers
  import opened Text

  datatype Decimal = Decimal(mantissa: int, exponent: nat)

  predicate Truthy(d: Decimal)
  {
    d.mantissa != 0
  }

  function Abs(x: int): nat
  {
    if x < 0 then -x else x
  }

  /**
    |d| in hundredths: the nearest hundredth, a tie going up (toFixed rounds
    the magnitude; the sign is printed separately). Scaled by 10 to stay in
    whole numbers: |m| / 10^e * 100 + 1/2 == (1000 * |m| + 5 * 10^e) / 10^(e+1).
   */
  function Hundredths(d: Decimal): (h: nat)
    ensures h * Pow10(d.exponent + 1) <= 1000 * Abs(d.mantissa) + 5 * Pow10(d.exponent)
    ensures 1000 * Abs(d.mantissa) + 5 * Pow10(d.exponent) < (h + 1) * Pow10(d.exponent + 1)
  {
    var scaled := 1000 * Abs(d.mantissa) + 5 * Pow10(d.exponent);
    DivPow10Bounds(scaled, d.exponent + 1);
    DivPow10(scaled, d.exponent + 1)
  }

  /** `score.toFixed(2)`: an optional "-", the integer part, a point and two digits. */
  function ToFixed2(d: Decimal): (r: string)
    ensures d.mantissa >= 0 ==> ParseFixed(r, 2) == Some(Hundredths(d))
    ensures d.mantissa < 0 ==> |r| > 0 && r[0] == '-' && ParseFixed(r[1..], 2) == Some(Hundredths(d))
  {
    FixedRoundTrip(Hundredths(d), 2);
    if d.mantissa < 0 then
      assert ("-" + Fixed(Hundredths(d), 2))[1..] == Fixed(Hundredths(d), 2);
      "-" + Fixed(Hundredths(d), 2)
    else
      Fixed(Hundredths(d), 2)
  }

  /** The text is the only one that reads back as the rounded score: "087.46" is refused. */
  lemma ToFixed2Exact(d: Decimal, s: string)
    requires ParseFixed(s, 2) == Some(Hundredths(d))
    ensures d.mantissa >= 0 ==> s == ToFixed2(d)
    ensures d.mantissa < 0 ==> "-" + s == ToFixed2(d)
  {
    ParseFixedExact(s, 2, Hundredths(d));
  }

  /** 87.456 prints as "87.46". */
  lemma ExampleScore()
    ensures ToFixed2(Decimal(87456, 3)) == "87.46"
  {
    assert Pow10(3) == 1000;
    assert DivPow10(87461000, 4) == 8746;
    assert Hundredths(Decimal(87456, 3)) == 8746;
    assert Pow10(2) == 100;
    assert WholePart(8746, 2) == 87 && FracPart(8746, 2) == 46;
    assert NatToString(87) == [DigitChar(8), DigitChar(7)];
    assert PadDigits(46, 2) == [DigitChar(4), DigitChar(6)];
    assert DigitChar(8) == '8' && DigitChar(7) == '7' && DigitChar(4) == '4' && DigitChar(6) == '6';
  }
}

=== FILE: smtp.dfy ===
/**
  createSMTPClient: the options record handed to the mail transport, built
  from the SMTP configuration value.
 */
module Smtp {
  import opened Wrappers

  /** The SMTP configuration value; username and password may be absent. */
  datatype SmtpConfig = SmtpConfig(
    host: string,
    port: nat,
    secure: bool,
    timeout: nat,
    username: Option<string>,
    password: Option<string>,
    rejectUnauthCerts: bool,
    from: string)

  datatype Auth = Auth(user: string, pass: string)

  datatype Tls = Tls(rejectUnauthorized: bool)

  datatype TransportOptions = TransportOptions(
    port: nat,
    host: string,
    connectionTimeout: nat,
    secure: bool,
    auth: Auth,
    tls: Tls)

  /** The credential used when the configured one is falsy. */
  const Placeholder: string := "test"

  /** A string field is falsy when it is absent or empty. */
  predicate Falsy(v: Option<string>)
  {
    v.None? || v.value == ""
  }

  /** `v || 'test'` */
  function OrPlaceholder(v: Option<string>): (r: string)
    ensures Falsy(v) ==> r == Placeholder
    ensures !Falsy(v) ==> r == v.value
    ensures r != ""
  {
    if Falsy(v) then Placeholder else v.value
  }

  function CreateSmtpOptions(c: SmtpConfig): (o: TransportOptions)
    ensures o.port == c.port && o.host == c.host && o.secure == c.secure
    ensures o.connectionTimeout == c.timeout
    ensures o.tls.rejectUnauthorized == c.rejectUnauthCerts
    ensures Falsy(c.username) ==> o.auth.user == Placeholder
    ensures !Falsy(c.username) ==> o.auth.user == c.username.value
    ensures Falsy(c.password) ==> o.auth.pass == Placeholder
    ensures !Falsy(c.password) ==> o.auth.pass == c.password.value
  {
    TransportOptions(
      c.port, c.host, c.timeout, c.secure,
      Auth(OrPlaceholder(c.username), OrPlaceholder(c.password)),
      Tls(c.rejectUnauthCerts))
  }

  /**
    The options determine the connection fields of the configuration, and the
    credentials too unless one side used the placeholder.
   */
  lemma OptionsDetermineConfig(c1: SmtpConfig, c2: SmtpConfig)
    requires CreateSmtpOptions(c1) == CreateSmtpOptions(c2)
    ensures c1.host == c2.host && c1.port == c2.port && c1.secure == c2.secure
    ensures c1.timeout == c2.timeout && c1.rejectUnauthCerts == c2.rejectUnauthCerts
    ensures !Falsy(c1.username) && !Falsy(c2.username) ==> c1.username == c2.username
    ensures !Falsy(c1.password) && !Falsy(c2.password) ==> c1.password == c2.password
  {
  }

  /**
    A missing, an empty and a literal "test" username reach the transport as
    the same user; likewise for the password.
   */
  lemma PlaceholderIndistinguishable(c: SmtpConfig)
    ensures CreateSmtpOptions(c.(username := None)) == CreateSmtpOptions(c.(username := Some("")))
    ensures CreateSmtpOptions(c.(username := None)) == CreateSmtpOptions(c.(username := Some(Placeholder)))
    ensures CreateSmtpOptions(c.(password := None)) == CreateSmtpOptions(c.(password := Some("")))
    ensures CreateSmtpOptions(c.(password := None)) == CreateSmtpOptions(c.(password := Some(Placeholder)))
  {
  }
}

=== FILE: tally.dfy ===
/**
  The codes and errors summaries built in generateReportFromTemplate: every
  entry of a label -> count mapping becomes "label: count", and the pieces are
  joined with ", ". The mapping is given in its enumeration order.
 */
module Tally {
  import opened Wrappers
  import opened Text

  /** A label -> count mapping, in the order its keys are enumerated. */
  type Entries = seq<(string, nat)>

  /** `${label}: ${count}` */
  function Piece(entry: (string, nat)): string
  {
    entry.0 + ": " + NatToString(entry.1)
  }

  function Pieces(t: Entries): (ps: seq<string>)
    ensures |ps| == |t|
    ensures forall k :: 0 <= k < |t| ==> ps[k] == Piece(t[k])
  {
    seq(|t|, k requires 0 <= k < |t| => Piece(t[k]))
  }

  /** The reference definition of a summary: the pieces joined with ", ". */
  function Summarize(t: Entries): string
  {
    Join(Pieces(t), ", ")
  }

  /**
    The forEach/push/join sequence of generateReportFromTemplate, used for the
    codes map and for the errors map alike.
   */
  method SummarizeTally(t: Entries) returns (summary: string)
    ensures summary == Summarize(t)
    ensures summary == "" <==> |t| == 0
  {
    var pieces: seq<string> := [];
    var i := 0;
    while i < |t|
      invariant 0 <= i <= |t|
      invariant |pieces| == i
      invariant forall k :: 0 <= k < i ==> pieces[k] == Piece(t[k])
    {
      pieces := pieces + [Piece(t[i])];
      i := i + 1;
    }
    assert pieces == Pieces(t);
    summary := Join(pieces, ", ");
    SummarizeEmptyIff(t);
  }

  /** Only the empty mapping has the empty summary. */
  lemma SummarizeEmptyIff(t: Entries)
    ensures Summarize(t) == "" <==> |t| == 0
  {
    if |t| > 0 {
      var ps := Pieces(t);
      var s := Summarize(t);
      if |t| == 1 {
        assert s == Piece(t[0]);
      } else {
        assert s == ps[0] + ", " + Join(ps[1..], ", ");
      }
      assert |Piece(t[0])| >= 2;
    }
  }

  lemma SummarizeSingle(key: string, count: nat)
    ensures Summarize([(key, count)]) == key + ": " + NatToString(count)
  {
  }

  lemma PiecesAppend(a: Entries, b: Entries)
    ensures Pieces(a + b) == Pieces(a) + Pieces(b)
  {
  }

  /** Summarising a concatenation joins the two summaries with ", ". */
  lemma SummarizeAppend(a: Entries, b: Entries)
    requires |a| > 0 && |b| > 0
    ensures Summarize(a + b) == Summarize(a) + ", " + Summarize(b)
  {
    PiecesAppend(a, b);
    JoinAppend(Pieces(a), Pieces(b), ", ");
  }

  /** Length of the longest all-digit prefix of `s`. */
  function DigitSpan(s: string): (j: nat)
    ensures j <= |s|
    ensures forall k :: 0 <= k < j ==> IsDigit(s[k])
    ensures j < |s| ==> !IsDigit(s[j])
  {
    if |s| == 0 || !IsDigit(s[0]) then 0 else 1 + DigitSpan(s[1..])
  }

  lemma DigitSpanAfterDigits(d: string, rest: string)
    requires AllDigits(d)
    requires |rest| == 0 || !IsDigit(rest[0])
    ensures DigitSpan(d + rest) == |d|
  {
    var s := d + rest;
    assert forall k :: 0 <= k < |d| ==> s[k] == d[k];
    if |rest| > 0 {
      assert s[|d|] == rest[0];
    }
  }

  /** Reads the entries of a non-empty summary; None when it is not one. */
  function ParseEntries(s: string): Option<Entries>
    decreases |s|
  {
    var i := IndexOf(s, ':');
    if i + 1 >= |s| || s[i + 1] != ' ' then None
    else
      var rest := s[i + 2..];
      var j := DigitSpan(rest);
      if j == 0 then None
      else
        var entry := (s[..i], DigitsValue(rest[..j]));
        var tail := rest[j..];
        if |tail| == 0 then Some([entry])
        else if |tail| >= 2 && tail[..2] == ", " then
          match ParseEntries(tail[2..])
          case Some(more) => Some([entry] + more)
          case None => None
        else None
  }

  /** Reads a summary back into the mapping it was built from. */
  function ParseTally(s: string): Option<Entries>
  {
    if |s| == 0 then Some([]) else ParseEntries(s)
  }

  /** A mapping whose labels the summary can be read back from: none holds ':'. */
  predicate PlainLabels(t: Entries)
  {
    forall k :: 0 <= k < |t| ==> ':' !in t[k].0
  }

  /** ParseEntries finds the key before the first ':' and the digits after ": ". */
  lemma KeyLayout(key: string, body: string)
    requires ':' !in key
    ensures var s := key + ": " + body;
            && IndexOf(s, ':') == |key|
            && |s| > |key| + 1 && s[|key| + 1] == ' '
            && s[..|key|] == key
            && s[|key| + 2..] == body
  {
    var s := key + ": " + body;
    assert s == key + [':'] + (" " + body);
    IndexOfAfterPrefix(key, ':', " " + body);
  }

  /** The digit run of a count followed by `tail` ends where the count does. */
  lemma CountLayout(count: nat, tail: string)
    requires tail == [] || tail[0] == ','
    ensures var rest := NatToString(count) + tail;
            && DigitSpan(rest) == |NatToString(count)|
            && rest[..|NatToString(count)|] == NatToString(count)
            && rest[|NatToString(count)|..] == tail
  {
    DigitSpanAfterDigits(NatToString(count), tail);
  }

  /** Reading a last "key: count" piece. */
  lemma ParseLastEntry(key: string, count: nat)
    requires ':' !in key
    ensures ParseEntries(key + ": " + NatToString(count)) == Some([(key, count)])
  {
    assert key + ": " + NatToString(count) == key + ": " + (NatToString(count) + []);
    KeyLayout(key, NatToString(count) + []);
    CountLayout(count, []);
    NatToStringRoundTrip(count);
  }

  /** Reading a "key: count" piece followed by ", " and more entries. */
  lemma ParseNextEntry(key: string, count: nat, rest: string, more: Entries)
    requires ':' !in key
    requires ParseEntries(rest) == Some(more)
    ensures ParseEntries(key + ": " + NatToString(count) + (", " + rest)) == Some([(key, count)] + more)
  {
    var tail := ", " + rest;
    assert key + ": " + NatToString(count) + tail == key + ": " + (NatToString(count) + tail);
    KeyLayout(key, NatToString(count) + tail);
    CountLayout(count, tail);
    NatToStringRoundTrip(count);
    assert tail[..2] == ", " && tail[2..] == rest;
  }

  /** A summary of several entries is the first piece, ", " and the summary of the rest. */
  lemma SummarizeCons(t: Entries)
    requires |t| > 1
    ensures Summarize(t) == t[0].0 + ": " + NatToString(t[0].1) + (", " + Summarize(t[1..]))
  {
    assert Pieces(t)[1..] == Pieces(t[1..]);
  }

  /** One step of the round trip: the first piece is read, then the rest as before. */
  lemma ParseEntriesCons(t: Entries)
    requires |t| > 1 && ':' !in t[0].0
    requires ParseEntries(Summarize(t[1..])) == Some(t[1..])
    ensures ParseEntries(Summarize(t)) == Some(t)
  {
    var key, count, tail := t[0].0, t[0].1, t[1..];
    var s := key + ": " + NatToString(count) + (", " + Summarize(tail));
    SummarizeCons(t);
    assert Summarize(t) == s;
    ParseNextEntry(key, count, Summarize(tail), tail);
    assert [(key, count)] + tail == t;
  }

  lemma {:induction false} ParseEntriesSummarize(t: Entries)
    requires |t| > 0 && PlainLabels(t)
    ensures ParseEntries(Summarize(t)) == Some(t)
  {
    if |t| == 1 {
      assert Summarize(t) == t[0].0 + ": " + NatToString(t[0].1);
      ParseLastEntry(t[0].0, t[0].1);
      assert t == [(t[0].0, t[0].1)];
    } else {
      ParseEntriesSummarize(t[1..]);
      ParseEntriesCons(t);
    }
  }

  /** The summary determines the mapping, as long as no label contains ':'. */
  lemma SummarizeRoundTrip(t: Entries)
    requires PlainLabels(t)
    ensures ParseTally(Summarize(t)) == Some(t)
  {
    SummarizeEmptyIff(t);
    if |t| > 0 {
      ParseEntriesSummarize(t);
    }
  }

  lemma SummarizeInjective(a: Entries, b: Entries)
    requires PlainLabels(a) && PlainLabels(b)
    requires Summarize(a) == Summarize(b)
    ensures a == b
  {
    SummarizeRoundTrip(a);
    SummarizeRoundTrip(b);
  }

  /** A label containing ':' is not always recovered: two mappings share one summary. */
  lemma ColonLabelsCollide()
    ensures Summarize([("a: 1, b", 2)]) == Summarize([("a", 1), ("b", 2)])
  {
    assert NatToString(1) == "1" && NatToString(2) == "2";
  }

  lemma ExampleCodes()
    ensures Summarize([("200", 10)]) == "200: 10"
    ensures Summarize([]) == ""
  {
    assert NatToString(10) == NatToString(1) + [DigitChar(0)];
  }
}

=== FILE: text.dfy ===
/**
  String building blocks used by the report: decimal digits, the rendering of a
  non-negative integer the way JavaScript's `String(n)` does it, fixed-point
  rendering (`toFixed`), and `Array.prototype.join` together with the split that
  undoes it.
 */
module Text {
  import opened Wrappers

  predicate IsDigit(c: char) {
    '0' <= c <= '9'
  }

  predicate AllDigits(s: string) {
    forall i :: 0 <= i < |s| ==> IsDigit(s[i])
  }

  function DigitChar(d: nat): (c: char)
    requires d < 10
    ensures IsDigit(c)
    ensures c as int == '0' as int + d
  {
    ('0' as int + d) as char
  }

  function DigitValue(c: char): (d: nat)
    requires IsDigit(c)
    ensures d < 10
    ensures DigitChar(d) == c
  {
    c as int - '0' as int
  }

  /** Decimal rendering of `n`: digits only, never empty, no leading zero. */
  function NatToString(n: nat): (s: string)
    ensures |s| > 0 && AllDigits(s)
    ensures |s| > 1 ==> s[0] != '0'
    ensures n < 10 <==> |s| == 1
    decreases n
  {
    if n < 10 then [DigitChar(n)] else NatToString(n / 10) + [DigitChar(n % 10)]
  }

  /** The number a string of decimal digits denotes (most significant digit first). */
  function DigitsValue(s: string): nat
    requires AllDigits(s)
  {
    if |s| == 0 then 0 else DigitsValue(s[..|s| - 1]) * 10 + DigitValue(s[|s| - 1])
  }

  /** Appending a digit multiplies the value by ten and adds the digit. */
  lemma DigitsValueSnoc(s: string, c: char)
    requires AllDigits(s) && IsDigit(c)
    ensures AllDigits(s + [c])
    ensures DigitsValue(s + [c]) == DigitsValue(s) * 10 + DigitValue(c)
  {
    assert (s + [c])[..|s|] == s;
  }

  lemma {:induction false} NatToStringRoundTrip(n: nat)
    ensures DigitsValue(NatToString(n)) == n
  {
    if n >= 10 {
      DigitsValueSnoc(NatToString(n / 10), DigitChar(n % 10));
      NatToStringRoundTrip(n / 10);
    }
  }

  lemma NatToStringInjective(m: nat, n: nat)
    requires NatToString(m) == NatToString(n)
    ensures m == n
  {
    NatToStringRoundTrip(m);
    NatToStringRoundTrip(n);
  }

  function Pow10(p: nat): (r: nat)
    ensures r >= 1
  {
    if p == 0 then 1 else 10 * Pow10(p - 1)
  }

  /** The last `p` decimal digits of `v`, zero-padded on the left to exactly `p` characters. */
  function PadDigits(v: nat, p: nat): (s: string)
    ensures |s| == p && AllDigits(s)
  {
    if p == 0 then [] else PadDigits(v / 10, p - 1) + [DigitChar(v % 10)]
  }

  lemma {:induction false} PadDigitsValue(v: nat, p: nat)
    requires v < Pow10(p)
    ensures DigitsValue(PadDigits(v, p)) == v
  {
    if p > 0 {
      var q := Pow10(p - 1);
      assert v < 10 * q;
      assert v / 10 < q;
      DigitsValueSnoc(PadDigits(v / 10, p - 1), DigitChar(v % 10));
      PadDigitsValue(v / 10, p - 1);
    }
  }

  /** a / 10^k, computed one decimal digit at a time. */
  function DivPow10(a: nat, k: nat): nat
  {
    if k == 0 then a else DivPow10(a / 10, k - 1)
  }

  lemma ScaleByTen(q: nat, p: nat)
    ensures (q + 1) * p == q * p + p
    ensures q * (10 * p) == 10 * (q * p)
    ensures (q + 1) * (10 * p) == 10 * (q * p) + 10 * p
  {
  }

  lemma {:induction false} DivPow10Bounds(a: nat, k: nat)
    ensures DivPow10(a, k) * Pow10(k) <= a < (DivPow10(a, k) + 1) * Pow10(k)
  {
    if k > 0 {
      var q := DivPow10(a / 10, k - 1);
      var p := Pow10(k - 1);
      DivPow10Bounds(a / 10, k - 1);
      ScaleByTen(q, p);
      assert q * p <= a / 10 < q * p + p;
    }
  }

  /** The integer part of n / 10^places. */
  function WholePart(n: nat, places: nat): nat
  {
    DivPow10(n, places)
  }

  /** The fraction digits of n / 10^places, as a number below 10^places. */
  function FracPart(n: nat, places: nat): (f: nat)
    ensures f < Pow10(places)
    ensures n == WholePart(n, places) * Pow10(places) + f
  {
    DivPow10Bounds(n, places);
    n - WholePart(n, places) * Pow10(places)
  }

  /**
    Fixed-point rendering of the non-negative count `n` of units of 10^-places:
    the integer part, then (when places > 0) a point and exactly `places`
    fraction digits. This is what `x.toFixed(places)` prints for
    x == n / 10^places.
   */
  function Fixed(n: nat, places: nat): string
  {
    if places == 0 then NatToString(n)
    else
      NatToString(WholePart(n, places)) + "." + PadDigits(FracPart(n, places), places)
  }

  lemma FixedShape(n: nat, places: nat)
    ensures |Fixed(n, places)| > 0
    ensures forall i :: 0 <= i < |Fixed(n, places)| ==> IsDigit(Fixed(n, places)[i]) || Fixed(n, places)[i] == '.'
  {
  }

  /**
    Index of the first occurrence of `c` in `s`, or |s| when there is none.
   */
  function IndexOf(s: string, c: char): (i: nat)
    ensures i <= |s|
    ensures i < |s| ==> s[i] == c
    ensures forall j :: 0 <= j < i ==> s[j] != c
  {
    if |s| == 0 then 0 else if s[0] == c then 0 else 1 + IndexOf(s[1..], c)
  }

  lemma IndexOfAfterPrefix(a: string, c: char, b: string)
    requires c !in a
    ensures IndexOf(a + [c] + b, c) == |a|
  {
    var s := a + [c] + b;
    assert s[|a|] == c;
    assert forall j :: 0 <= j < |a| ==> s[j] == a[j] && a[j] in a;
  }

  /** A numeral as String(n) writes it: digits only, non-empty, no leading zero except in "0". */
  predicate Canonical(s: string)
  {
    |s| > 0 && AllDigits(s) && (|s| > 1 ==> s[0] != '0')
  }

  /** Reads back a string produced by `Fixed(_, places)`; any other string gives None. */
  function ParseFixed(s: string, places: nat): (r: Option<nat>)
  {
    if places == 0 then
      if Canonical(s) then Some(DigitsValue(s)) else None
    else
      var i := IndexOf(s, '.');
      if i == |s| then None
      else
        var whole := s[..i];
        var frac := s[i + 1..];
        if Canonical(whole) && |frac| == places && AllDigits(frac)
        then Some(DigitsValue(whole) * Pow10(places) + DigitsValue(frac))
        else None
  }

  /** Where ParseFixed finds the point and the two digit runs of a fixed-point rendering. */
  lemma FixedLayout(n: nat, places: nat)
    requires places > 0
    ensures var s := Fixed(n, places);
            var whole := NatToString(WholePart(n, places));
            && IndexOf(s, '.') == |whole|
            && s[..|whole|] == whole
            && s[|whole| + 1..] == PadDigits(FracPart(n, places), places)
  {
    var whole := NatToString(WholePart(n, places));
    var frac := PadDigits(FracPart(n, places), places);
    assert '.' !in whole by {
      forall i | 0 <= i < |whole| ensures whole[i] != '.' {
        assert IsDigit(whole[i]);
      }
    }
    IndexOfAfterPrefix(whole, '.', frac);
    var s := Fixed(n, places);
    assert s == whole + ['.'] + frac;
  }

  lemma FixedRoundTrip(n: nat, places: nat)
    ensures ParseFixed(Fixed(n, places), places) == Some(n)
  {
    if places == 0 {
      NatToStringRoundTrip(n);
    } else {
      FixedLayout(n, places);
      NatToStringRoundTrip(WholePart(n, places));
      PadDigitsValue(FracPart(n, places), places);
    }
  }

  lemma FixedInjective(m: nat, n: nat, places: nat)
    requires Fixed(m, places) == Fixed(n, places)
    ensures m == n
  {
    FixedRoundTrip(m, places);
    FixedRoundTrip(n, places);
  }

  /** A run of `|s|` digits denotes less than 10^|s|. */
  lemma {:induction false} DigitsValueBound(s: string)
    requires AllDigits(s)
    ensures DigitsValue(s) < Pow10(|s|)
  {
    if |s| > 0 {
      var init := s[..|s| - 1];
      DigitsValueBound(init);
      assert DigitsValue(s) == DigitsValue(init) * 10 + DigitValue(s[|s| - 1]);
    }
  }

  /** A digit run that does not start with '0' denotes at least 1. */
  lemma {:induction false} DigitsValuePositive(s: string)
    requires |s| > 0 && AllDigits(s) && s[0] != '0'
    ensures DigitsValue(s) >= 1
  {
    if |s| > 1 {
      var init := s[..|s| - 1];
      assert init[0] == s[0];
      DigitsValuePositive(init);
    } else {
      assert DigitChar(DigitValue(s[0])) == s[0];
    }
  }

  /** A canonical numeral is the rendering of the number it denotes. */
  lemma {:induction false} CanonicalRendering(s: string)
    requires Canonical(s)
    ensures NatToString(DigitsValue(s)) == s
  {
    if |s| > 1 {
      var init, last := s[..|s| - 1], s[|s| - 1];
      assert init[0] == s[0];
      assert Canonical(init);
      DigitsValuePositive(init);
      var v := DigitsValue(s);
      assert v == DigitsValue(init) * 10 + DigitValue(last);
      assert v / 10 == DigitsValue(init) && v % 10 == DigitValue(last);
      CanonicalRendering(init);
      assert s == init + [last];
    } else {
      assert s == [s[0]];
    }
  }

  /** A digit run of length p is the p-digit padding of the number it denotes. */
  lemma {:induction false} PaddedRendering(s: string)
    requires AllDigits(s)
    ensures PadDigits(DigitsValue(s), |s|) == s
  {
    if |s| > 0 {
      var init, last := s[..|s| - 1], s[|s| - 1];
      var v := DigitsValue(s);
      assert v == DigitsValue(init) * 10 + DigitValue(last);
      assert v / 10 == DigitsValue(init) && v % 10 == DigitValue(last);
      PaddedRendering(init);
      assert s == init + [last];
    }
  }

  /** Adding d >= 1 to a quotient adds at least one whole divisor. */
  lemma QuotientStep(a: nat, d: nat, p: nat)
    requires d >= 1
    ensures (a + d) * p >= a * p + p
  {
    var e: nat := d - 1;
    assert (a + d) * p == a * p + e * p + p;
  }

  /** Division by a positive number has one quotient and one remainder. */
  lemma QuotientUnique(a: nat, f: nat, b: nat, g: nat, p: nat)
    requires f < p && g < p
    requires a * p + f == b * p + g
    ensures a == b && f == g
  {
    if a < b {
      QuotientStep(a, b - a, p);
    } else if b < a {
      QuotientStep(b, a - b, p);
    }
  }

  /** ParseFixed accepts exactly the renderings: what it reads as n is Fixed(n, places). */
  lemma ParseFixedExact(s: string, places: nat, n: nat)
    requires ParseFixed(s, places) == Some(n)
    ensures s == Fixed(n, places)
  {
    if places == 0 {
      CanonicalRendering(s);
    } else {
      var i := IndexOf(s, '.');
      var whole, frac := s[..i], s[i + 1..];
      var p := Pow10(places);
      DigitsValueBound(frac);
      assert n == DigitsValue(whole) * p + DigitsValue(frac);
      QuotientUnique(WholePart(n, places), FracPart(n, places), DigitsValue(whole), DigitsValue(frac), p);
      CanonicalRendering(whole);
      PaddedRendering(frac);
      assert s == whole + "." + frac;
    }
  }

  /** `parts.join(sep)`: the parts in order with `sep` between neighbours; "" for no parts. */
  function Join(parts: seq<string>, sep: string): string
  {
    if |parts| == 0 then ""
    else if |parts| == 1 then parts[0]
    else parts[0] + sep + Join(parts[1..], sep)
  }

  lemma {:induction false} JoinAppend(a: seq<string>, b: seq<string>, sep: string)
    requires |a| > 0 && |b| > 0
    ensures Join(a + b, sep) == Join(a, sep) + sep + Join(b, sep)
  {
    if |a| == 1 {
      assert (a + b)[1..] == b;
    } else {
      assert (a + b)[1..] == a[1..] + b;
      JoinAppend(a[1..], b, sep);
    }
  }

  /** Splits `s` at every occurrence of `c`; the inverse of joining with [c]. */
  function Split(s: string, c: char): (parts: seq<string>)
    ensures |parts| > 0
    decreases |s|
  {
    var i := IndexOf(s, c);
    if i == |s| then [s] else [s[..i]] + Split(s[i + 1..], c)
  }

  lemma {:induction false} SplitJoin(parts: seq<string>, c: char)
    requires |parts| > 0
    requires forall k :: 0 <= k < |parts| ==> c !in parts[k]
    ensures Split(Join(parts, [c]), c) == parts
  {
    if |parts| == 1 {
      var s := parts[0];
      assert forall j :: 0 <= j < |s| ==> s[j] in s;
    } else {
      var rest := Join(parts[1..], [c]);
      var s := Join(parts, [c]);
      assert s == parts[0] + [c] + rest;
      IndexOfAfterPrefix(parts[0], c, rest);
      assert s[..|parts[0]|] == parts[0];
      assert s[|parts[0]| + 1..] == rest;
      SplitJoin(parts[1..], c);
    }
  }
}

=== FILE: wrappers.dfy ===
/** Failure-carrying datatypes shared by the other modules. */
module Wrappers {

  /** An optional value: the model's stand-in for a JavaScript field that may be absent. */
  datatype Option<+T> = None | Some(value: T)

  /** The outcome of a step that may throw: a value, or the error it was thrown with. */
  datatype Result<+R, +E> = Success(value: R) | Failure(error: E)
}
